=== FILE: README.md ===
# Complaint-intake dialogue of the apartment-building complaint bot

The bot walks a resident through a building-maintenance complaint: a
category from a menu (or a free-text "other problem"), then name, floor,
apartment, house number and intercom number. It then appends one row to a
spreadsheet. This project models the dialogue in `main.py` as a pure step
function over one user's conversation state and `user_data` dictionary, and
proves what each update does and what holds over whole runs.

Modules, leaves first:

- `Wrappers`: `Option`.
- `Strings`: `str.isdigit`, `str.startswith` and `str.split` on one character, with `Join` as its inverse.
- `Catalog`: the id-to-label table `PROBLEM_TRANSLATIONS` and the category menu.
- `Fields`: `user_data` as `map<string, string>`, its keys, and `FirstMissing`. `FirstMissing` is the reference definition of "the next field to ask for".
- `Patterns`: the callback filter of the floor keyboard and the floor that handler takes from the callback data.
- `Report`: the spreadsheet header and the row built for a finished complaint.
- `Handlers`: one function per handler (`start`, `button_click`, `select_problem_type`, `get_other_problem`, `get_user_details`, `floor_keyboard_handler`, `/help`, `/clear`). Each returns an `Outcome`: what it hands back to the conversation handler (`None`, a state or `END`), the new `user_data`, the messages sent (abstract `Reply` tags) and the row that reached the spreadsheet.
- `Conversation`: routing and `Step`. The conversation handler of `main()` is tried first. Outside the conversation only its entry point applies. Inside, the current state's handlers apply, then the `/start` fallback. When it declines an update, the handlers registered on the application after it run. Their return value does not move the conversation. `Run` folds `Step` over a sequence of updates and collects the written rows.
- `Properties`: lemmas about single steps and about runs.

Behaviour of the code that the model keeps on purpose:

- When saving fails, the bot still answers "complaint sent" and empties `user_data`. A missing `problem_type` (a `KeyError` inside the same `try`) behaves the same way.
- A floor button pressed during the details step stores the floor even before the name is given.
- The `"step"` entry written by the floor keyboard handler is never read.
- A `back_to_start` button pressed during the free-text or details step is declined by the conversation handler. It reaches the application-level `button_click`, which empties `user_data` but leaves the conversation state as it was. In the free-text step the next text still becomes the problem type. In the details step the problem type is lost: the complaint is confirmed but nothing is written (`Properties.ConfirmedButNotSaved`).
- A failed save does not keep the session for a retry: `user_data` is cleared all the same (main.py:151).
- There is no explicit step variable; the next question is inferred from which keys are missing (main.py:108-127).

## Model

| member | source | states |
|---|---|---|
| Strings.StartsWith | main.py:184 | `str.startswith` holds exactly when the string is the prefix followed by the rest of the string |
| Strings.SplitHeadEnds | main.py:185 | the first piece of `str.split` is the text up to the first separator, or the whole string when there is none |
| Strings.Split | main.py:185 | `str.split` on one character yields at least one piece, and no piece contains the separator |
| Strings.JoinSplit | main.py:185 | joining the pieces of a split with the separator gives the original string back |
| Strings.SplitJoin | main.py:185 | splitting a join of separator-free pieces gives the pieces back |
| Strings.IsDigits | main.py:113 | `str.isdigit` holds only of non-empty digit strings, which contain no newline, underscore or space |
| Catalog.Lookup | main.py:90 | `PROBLEM_TRANSLATIONS.get(id, id)` returns something other than `id` exactly when `id` is a known category, and then a label of the table |
| Catalog.LookupKnown | main.py:30-37 | each of the six category ids resolves to its Russian label |
| Catalog.LookupUnknown | main.py:90 | every id outside the six passes through unchanged |
| Catalog.MenuAgreesWithTranslations | main.py:66-79 | the six category buttons carry exactly the table's ids, each labelled with what is stored for it; "other_problem" and "back_to_start" are not in the table |
| Fields.FirstMissing | main.py:107-127 | the result is absent exactly when every key is present; otherwise it is a missing key, and every key before it is present |
| Fields.FirstMissingInOrder | main.py:108-127 | the details step asks for fio, then floor, then apartment, then house number, and completes once all four are present |
| Report.BuildRow | main.py:133-141 | a row exists exactly when all six fields are present; it has the header's seven columns, the timestamp first, then fio, floor, apartment, house number, intercom and problem type |
| Patterns.MatchesFloorAsWritten | main.py:215 | the floor pattern as `re.match` reads it admits only data that starts with "floor_" and has more after it, so the handler's "floor_" branch is taken; "manual_floor" is not admitted by it |
| Patterns.MatchesFloor | main.py:215 | the whole-string reading of the floor pattern admits a subset of what the code's reading admits, and its floor text holds no newline or underscore |
| Patterns.FloorOf | main.py:184-185 | `data.split("_")[1]` is defined for every "floor_" callback: it is the text after "floor_" up to the next underscore, or to the end when there is none |
| Patterns.MatchesFloorKeyboard | main.py:215 | the floor keyboard filter, read as whole-string matches, admits only what the code's reading admits, and every admitted "floor_" callback is followed by digits alone |
| Patterns.FloorOfMatched | main.py:215 | for callbacks the floor filter admits (read as a whole-string match), the floor taken is the whole digit string after "floor_" |
| Patterns.AsWrittenAdmitsTrailingNewline | main.py:215 | `re.match` with `^floor_\d+$` admits "floor_3\n", whose floor "3\n" is not a digit string |
| Patterns.AsWrittenDiffersOnlyByNewline | main.py:215 | the filter as written admits more than the whole-string reading only on data ending in a newline |
| Handlers.Start | main.py:39-53 | `/start` empties `user_data`, writes nothing and ends the conversation |
| Handlers.ButtonClick | main.py:167-178 | only "house_problem" enters the dialogue, showing the category menu; only "back_to_start" ends it and empties `user_data`; every other button leaves `user_data` alone |
| Handlers.SelectProblemType | main.py:81-92 | "back_to_start" resets; "other_problem" goes to the free-text state with `user_data` untouched; anything else sets the problem type to its looked-up label, changes no other key and goes to the details step |
| Handlers.GetOtherProblem | main.py:94-97 | the free text becomes the problem type verbatim, no other key changes, and the details step follows |
| Handlers.Submit | main.py:128-154 | the last answer always ends the dialogue, empties `user_data` and closes with the confirmation; a row is written exactly when the store works and the row can be built, and it is then the row `BuildRow` makes of the data with the intercom answer added, so each column holds its field; the replies are the confirmation alone after a write, and the save-failure notice followed by the confirmation otherwise |
| Handlers.GetUserDetails | main.py:107-154 | fills the first missing of fio, floor, apartment, house number; refuses a non-digit floor with nothing changed; with all four present, ends the dialogue, empties `user_data`, always confirms, and writes the seven-column row exactly when the store works and a problem type is on record, replying with the confirmation alone after a write and with the save-failure notice then the confirmation otherwise |
| Handlers.FloorKeyboardHandler | main.py:180-195 | a matched floor button stores the digits after "floor_" as the floor and changes nothing but floor and step; "manual_floor" changes nothing but step; both stay in the details step |
| Handlers.ChooseFloor | main.py:184-190 | a floor button always stores a floor and changes no key besides floor and step |
| Handlers.HelpCommand | main.py:55-63 | `/help` changes neither state nor data |
| Handlers.ClearCommand | main.py:164-165 | `/clear` changes neither state nor data |
| Conversation.ConversationHandler | main.py:208-219 | outside, only buttons are taken; in a state, the only command taken is `/start`; the category menu takes every button; the free-text step takes non-empty text; the details step takes non-empty text and the floor-filter buttons; empty text is taken by no handler |
| Conversation.ApplicationHandler | main.py:222-225 | when the conversation handler declines, every button and the commands start, help and clear are taken; none writes a row; a button changes `user_data` only by emptying it on "back_to_start", and `/start` empties it |
| Conversation.Apply | main.py:208-219 | a handler's `END` always leaves the conversation, a state enters that state, and `None` keeps the conversation exactly where it was; the conversation is outside only after `END` or `None` outside |
| Conversation.Step | main.py:208-225 | a row is written only by a text in the details step with a working store, and that update ends the dialogue; `/start` always resets; updates other than buttons, text and `/start` change nothing, and neither does an empty text |
| Conversation.Run | main.py:208-225 | a run writes no more rows than it has non-empty text updates arriving while the spreadsheet works |
| Properties.StartResets | main.py:218 | `/start` from any state, inside or outside the conversation, empties `user_data` and ends the dialogue without writing |
| Properties.BackToStartEnds | main.py:84-85 | "back_to_start" from the main menu or the category menu empties `user_data` and ends the dialogue |
| Properties.OpenCategories | main.py:171-172 | "house_problem" from outside enters the category menu with `user_data` unchanged |
| Properties.PressedCategoryStoresItsText | main.py:66-92 | a button of the category menu stores as the problem type exactly the text shown on it |
| Properties.ChooseOtherProblem | main.py:86-88 | "other_problem" in the category menu moves to the free-text state without touching `user_data` |
| Properties.ChooseCategory | main.py:90-92 | any other button in the category menu stores the category's label, or the raw id when unknown, as the problem type and moves to the details step |
| Properties.EmptyTextIgnored | main.py:212-214 | a message with empty text, which `filters.TEXT` declines, changes neither the conversation nor `user_data` and sends and writes nothing, whatever the dialogue's state; every written row comes from a non-empty text |
| Properties.DescribeOtherProblem | main.py:94-97 | free text in the free-text state becomes the problem type verbatim, no other key changes, and the details step follows |
| Properties.DetailAdded | main.py:107-126 | an accepted answer adds exactly one key, the first missing one in asking order, writes nothing and stays in the details step |
| Properties.FloorRejected | main.py:112-115 | with fio set and floor missing, a non-empty text that is not all digits leaves state and data unchanged and re-prompts once |
| Properties.Complete | main.py:128-154 | the intercom answer ends the dialogue with `user_data` empty and a final confirmation, whether or not saving worked; the row is written exactly when the store works and a problem type is on record, in header order and width; the replies are the confirmation alone after a write, and the save-failure notice then the confirmation otherwise |
| Properties.ManualFloorKeepsFields | main.py:192-195 | "manual_floor" changes none of the keys the details step or the row reads and stays in the details step |
| Properties.FloorButtonBeforeFio | main.py:184-186 | a floor button before the name stores the floor, and the next text is still taken as the name |
| Properties.BackInsideClearsOnlyData | main.py:225 | "back_to_start" in the free-text or details step empties `user_data` but keeps the conversation state |
| Properties.UnhandledKeepsDialogue | main.py:208-225 | updates no handler of the current state takes leave state and data unchanged |
| Properties.StepKeyIgnored | main.py:107-128 | dialogues differing only in "step" take the same transition, send the same replies, write the same row and again differ only in "step" |
| Properties.DetailsIgnoreStep | main.py:107-154 | the details step's answer handling does not depend on "step" |
| Properties.FloorKeyboardIgnoresStep | main.py:180-195 | the floor keyboard handler's result does not depend on a previous "step" |
| Properties.ManualFloorNewlineIgnored | main.py:192-195 | data "manual_floor\n", which `^manual_floor$` admits under `re.match`, falls through the handler's branches and changes neither the conversation nor `user_data` |
| Properties.AsWrittenFilterStoresBadFloor | main.py:184-186 | with the filter as written, the button data "floor_3\n" would store the non-digit floor "3\n" |
| Properties.StepPreservesWf | main.py:208-219 | every update keeps the invariant: empty `user_data` outside the details step, only the dialogue's keys, a digit-only floor, non-empty fio, apartment and house number; any row written has seven columns, a digit-only floor column and non-empty typed columns |
| Properties.DetailsTextWf | main.py:107-154 | a text answer in the details step keeps that invariant |
| Properties.RunRowsWellFormed | main.py:113-141 | every row written over a run has the header's width, a digit-only floor and non-empty fio, apartment, house number and intercom columns, and the run ends in a dialogue that keeps the invariant |
| Properties.RunFromInitialWellFormed | main.py:113-141 | from a fresh start, any sequence of updates ends in a dialogue that keeps the invariant and writes only rows of the header's width with a digit-only floor and non-empty typed columns |
| Properties.RunRowsStamped | main.py:133-142 | every row a run writes has the header's width and carries, first, the time of a text update that arrived while the spreadsheet worked |
| Properties.StartDiscardsResidue | main.py:39-40 | after `/start`, any run proceeds exactly as from a fresh start: nothing of the discarded session remains |
| Properties.AnswerRun | main.py:107-126 | an accepted answer hands the rest of the run the data with that answer filed |
| Properties.AnswersRun | main.py:107-126 | four answers after the problem type file fio, floor, apartment and house number in turn |
| Properties.LastAnswerRun | main.py:128-154 | the intercom answer writes the row of the filed answers, or nothing without a problem type, and ends the dialogue |
| Properties.DetailsRun | main.py:107-154 | five answers with a digit floor and a working store write exactly the row of those answers, or nothing when no problem type is on record |
| Properties.ConfirmedButNotSaved | main.py:144-151 | "back_to_start" during the details step, then five answers: no row is written, the dialogue ends, and the last answer still gets the error message followed by the confirmation |
| Properties.WaterLeakScenario | main.py:81-154 | "house_problem", "water_leak", then "Ivanov I.I.", "3", "12", "5", "101" writes one row with the label "Протечка воды" and returns to the start |

## Left out

- Telegram transport: replies, message edits, keyboard rendering, `query.answer()`, command registration and `run_polling`. Replies are abstract `Reply` tags.
- The spreadsheet file: workbook creation, load and save. The store is modelled as the sequence of rows written. One `storeOk` flag per update says whether load and save succeed.
- The timestamp from `datetime.now().strftime`. It is an opaque `now` string supplied with each update.
- Token and environment loading, `set_bot_commands`, and the logging `print` calls. These involve no dialogue state.
- `ask_floor` (main.py:99-105). It is defined but never called, so the floor keyboard is never offered. Floor-button updates are still modelled, because the handler is registered.
- Per-user and per-chat keying of conversations and `user_data`, and asyncio scheduling. These belong to python-telegram-bot. The model covers one user in one chat, so the isolation of concurrent users is not stated.
- Non-text messages (photos, stickers): no handler of main.py takes them.
- Callback queries without data: the pattern-less handlers at main.py:209 and main.py:211 would take them, and main.py:90 would store `None` as the problem type. Such queries come only from game buttons, and none of this bot's keyboards creates one, so the model's callbacks always carry a string.
- Strings.IsDigits: `str.isdigit` and the regex class `\d` accept Unicode digits beyond ASCII, and they differ from each other: `isdigit` also accepts non-decimal digits such as '²', which `\d` rejects, so the source would store a typed floor "²" that no floor button could carry. The model accepts the ASCII digits '0' to '9' only, for both.
- Conversation.Step: the floor keyboard filter is read as a whole-string match (see Findings). The code's `re.match` with `$` also admits one trailing newline.
- Edited messages: `filters.TEXT` and the command handlers also accept an edited message. The text handlers then fail on `update.message.text` before changing anything, but `start` empties `user_data` (main.py:40) before failing at main.py:52. The model has no edited-message update.
- Properties.RunRowsWellFormed: the problem-type column of a row is not promised non-empty. A category button's callback data is passed through unchanged when it is not in the table, and the model's callback data may be empty, which Telegram's 1-to-64-byte limit on callback data rules out.
- Conversation.ConversationHandler: routes floor-button callbacks by the same whole-string reading of main.py:215, so it does not route "floor_3\n" to the floor keyboard as the code would.
- Patterns.MatchesFloorKeyboard: reads `^floor_\d+$` as a whole-string match, and `^manual_floor$` as equality with "manual_floor". The second is harmless: "manual_floor\n" reaches no branch of the handler, which returns `None` and changes nothing (Properties.ManualFloorNewlineIgnored).

## Findings

| source | as written | input that shows it | evidently intended | confidence | as-written member | corrected member |
|---|---|---|---|---|---|---|
| main.py:215 | `^floor_\d+$` is applied with `re.match`, and Python's `$` also matches before a final newline | callback data "floor_3\n" passes the filter, and the handler stores the floor "3\n" | only "floor_" followed by digits up to the end, so that a stored floor is always digits, as the typed-floor check requires | low, not executed; the bot's own buttons never send such data, and the floor keyboard is never shown | Patterns.AsWrittenAdmitsTrailingNewline | Patterns.FloorOfMatched |

=== FILE: catalog.dfy ===
/** The complaint categories: the id carried by a category button and the
    label written into the report. */
module Catalog {

  /** The id-to-label table of main.py. */
  const Translations: map<string, string> := map[
    "water_leak" := "Протечка воды",
    "elevator_broken" := "Поломка лифта",
    "electricity_issue" := "Проблемы с электричеством",
    "noisy_neighbors" := "Шумные соседи",
    "garbage_not_removed" := "Мусор не вывозится",
    "property_damage" := "Повреждение имущества"
  ]

  /** A button of the category menu: the text shown and the callback data it sends. */
  datatype Button = Button(text: string, callback: string)

  /** The category menu in display order: six categories, then "other" and "back". */
  const CategoryMenu: seq<Button> := [
    Button("Протечка воды", "water_leak"),
    Button("Поломка лифта", "elevator_broken"),
    Button("Проблемы с электричеством", "electricity_issue"),
    Button("Шумные соседи", "noisy_neighbors"),
    Button("Мусор не вывозится", "garbage_not_removed"),
    Button("Повреждение имущества", "property_damage"),
    Button("Другая проблема", "other_problem"),
    Button("Назад", "back_to_start")
  ]

  /** `PROBLEM_TRANSLATIONS.get(id, id)`: the label of a known id, any other
      id unchanged. No label coincides with its id, so the result differs
      from the id exactly when the id is known. */
  function Lookup(id: string): (shown: string)
    ensures shown != id <==> id in Translations
    ensures shown in Translations.Values || shown == id
  {
    if id in Translations then Translations[id] else id
  }

  /** Each of the six category ids resolves to its label. */
  lemma LookupKnown()
    ensures Lookup("water_leak") == "Протечка воды"
    ensures Lookup("elevator_broken") == "Поломка лифта"
    ensures Lookup("electricity_issue") == "Проблемы с электричеством"
    ensures Lookup("noisy_neighbors") == "Шумные соседи"
    ensures Lookup("garbage_not_removed") == "Мусор не вывозится"
    ensures Lookup("property_damage") == "Повреждение имущества"
  {
  }

  /** Any id outside the six is passed through verbatim. */
  lemma LookupUnknown(id: string)
    requires id !in {"water_leak", "elevator_broken", "electricity_issue",
                     "noisy_neighbors", "garbage_not_removed", "property_damage"}
    ensures Lookup(id) == id
  {
  }

  /** The menu and the table agree: the first six buttons are exactly the
      known ids, each labelled with what `Lookup` stores for it, and the last
      two ids are unknown to the table. */
  lemma MenuAgreesWithTranslations()
    ensures |CategoryMenu| == 8
    ensures forall i :: 0 <= i < 6 ==> Lookup(CategoryMenu[i].callback) == CategoryMenu[i].text
    ensures Translations.Keys == set i | 0 <= i < 6 :: CategoryMenu[i].callback
    ensures CategoryMenu[6].callback !in Translations && CategoryMenu[7].callback !in Translations
  {
    MenuLabels();
    MenuIds();
  }

  lemma MenuLabels()
    ensures forall i :: 0 <= i < 6 ==> Lookup(CategoryMenu[i].callback) == CategoryMenu[i].text
  {
    forall i | 0 <= i < 6
      ensures Lookup(CategoryMenu[i].callback) == CategoryMenu[i].text
    {
      LookupKnown();
    }
  }

  lemma MenuIds()
    ensures Translations.Keys == set i | 0 <= i < 6 :: CategoryMenu[i].callback
  {
    var ids := set i | 0 <= i < 6 :: CategoryMenu[i].callback;
    assert CategoryMenu[0].callback in ids;
    assert CategoryMenu[1].callback in ids;
    assert CategoryMenu[2].callback in ids;
    assert CategoryMenu[3].callback in ids;
    assert CategoryMenu[4].callback in ids;
    assert CategoryMenu[5].callback in ids;
    assert ids <= Translations.Keys;
  }
}

=== FILE: conversation.dfy ===
/** One user's dialogue with the bot: the conversation state, `user_data`,
    and how the application routes each incoming update to a handler. */
module Conversation {
  import opened Wrappers
  import opened Strings
  import opened Fields
  import opened Patterns
  import opened Report
  import opened Handlers

  /** Outside the conversation (never entered, or ended) or in one of its states. */
  datatype Conv = Outside | In(state: State)

  datatype Dialogue = Dialogue(conv: Conv, data: UserData)

  /** An incoming update: a button press, a plain text message (not a
      command), or a command such as "/start" given by its name. */
  datatype Event = Callback(callback: string) | Text(text: string) | Command(name: string)

  /** What the surroundings supply to one update: the formatted time of day
      and whether the spreadsheet could be loaded and saved. */
  datatype Env = Env(now: string, storeOk: bool)

  datatype StepResult = StepResult(next: Dialogue, replies: seq<Reply>, saved: Option<Row>)

  const Initial: Dialogue := Dialogue(Outside, map[])

  /** The conversation handler of main(). Outside, any button goes to
      `button_click`; inside, only the current state's handlers are tried,
      then the "/start" fallback. The text handlers' filter takes only
      messages with non-empty text. `None` when the conversation handler
      declines the update. */
  function ConversationHandler(conv: Conv, e: Event, data: UserData, env: Env): (r: Option<Outcome>)
    ensures conv == Outside ==> (r.Some? <==> e.Callback?)
    ensures conv.In? && e.Command? ==> (r.Some? <==> e.name == "start")
    ensures conv == In(ProblemType) && !e.Command? ==> (r.Some? <==> e.Callback?)
    ensures conv == In(OtherProblem) && !e.Command? ==> (r.Some? <==> e.Text? && e.text != "")
    ensures conv == In(UserDetails) && !e.Command? ==>
              (r.Some? <==> (e.Text? && e.text != "") || (e.Callback? && MatchesFloorKeyboard(e.callback)))
    ensures e == Text("") ==> r.None?
  {
    match conv
    case Outside =>
      if e.Callback? then Some(ButtonClick(e.callback, data)) else None
    case In(ProblemType) =>
      if e.Callback? then Some(SelectProblemType(e.callback, data))
      else if e == Command("start") then Some(Start(data))
      else None
    case In(OtherProblem) =>
      if e.Text? && e.text != "" then Some(GetOtherProblem(e.text, data))
      else if e == Command("start") then Some(Start(data))
      else None
    case In(UserDetails) =>
      if e.Text? && e.text != "" then Some(GetUserDetails(e.text, data, env.now, env.storeOk))
      else if e.Callback? && MatchesFloorKeyboard(e.callback) then Some(FloorKeyboardHandler(e.callback, data))
      else if e == Command("start") then Some(Start(data))
      else None
  }

  /** The handlers registered on the application after the conversation
      handler, tried only when it declines. */
  function ApplicationHandler(e: Event, data: UserData): (r: Option<Outcome>)
    ensures r.Some? <==> e.Callback? || (e.Command? && e.name in {"start", "help", "clear"})
    ensures r.Some? ==> r.value.saved == None
    ensures e.Callback? ==> r.value.data == (if e.callback == BackToStart then map[] else data)
    ensures e.Command? && r.Some? ==> r.value.data == (if e.name == "start" then map[] else data)
  {
    match e
    case Command(name) =>
      if name == "start" then Some(Start(data))
      else if name == "help" then Some(HelpCommand(data))
      else if name == "clear" then Some(ClearCommand(data))
      else None
    case Callback(callback) => Some(ButtonClick(callback, data))
    case Text(_) => None
  }

  /** The conversation state after a handler of the conversation returned `ret`. */
  function Apply(conv: Conv, ret: Ret): (next: Conv)
    ensures next == Outside <==> ret == End || (ret == Keep && conv == Outside)
    ensures ret.Goto? ==> next == In(ret.state)
    ensures ret == Keep ==> next == conv
    ensures ret == End ==> next == Outside
  {
    match ret
    case Keep => conv
    case Goto(s) => In(s)
    case End => Outside
  }

  /** One update. A handler reached through the conversation handler moves
      the conversation by its return value; one reached outside it changes
      `user_data` only; an update nobody handles changes nothing. */
  function Step(d: Dialogue, e: Event, env: Env): (r: StepResult)
    ensures r.saved.Some? ==> d.conv == In(UserDetails) && e.Text? && e.text != "" && env.storeOk && r.next == Initial
    ensures r.saved.Some? ==> |r.saved.value| == |Header| && r.saved.value[0] == env.now
    ensures e == Command("start") ==> r.next == Initial && r.saved == None
    ensures !e.Callback? && !e.Text? && e != Command("start") ==> r.next == d
    ensures e == Text("") ==> r == StepResult(d, [], None)
  {
    match ConversationHandler(d.conv, e, d.data, env)
    case Some(o) => StepResult(Dialogue(Apply(d.conv, o.ret), o.data), o.replies, o.saved)
    case None =>
      match ApplicationHandler(e, d.data)
      case Some(o) => StepResult(Dialogue(d.conv, o.data), o.replies, o.saved)
      case None => StepResult(d, [], None)
  }

  datatype Input = Input(event: Event, env: Env)

  datatype RunResult = RunResult(last: Dialogue, rows: seq<Row>)

  /** The updates of a run that could write a row: non-empty text messages
      arriving while the spreadsheet can be loaded and saved. */
  function Writers(inputs: seq<Input>): nat
    decreases |inputs|
  {
    if |inputs| == 0 then 0
    else (if inputs[0].event.Text? && inputs[0].event.text != "" && inputs[0].env.storeOk then 1 else 0)
         + Writers(inputs[1..])
  }

  /** A sequence of updates, collecting the rows appended to the spreadsheet. */
  function Run(d: Dialogue, inputs: seq<Input>): (r: RunResult)
    ensures |r.rows| <= Writers(inputs)
    decreases |inputs|
  {
    if |inputs| == 0 then RunResult(d, [])
    else
      var r := Step(d, inputs[0].event, inputs[0].env);
      var rest := Run(r.next, inputs[1..]);
      var mine := if r.saved.Some? then [r.saved.value] else [];
      RunResult(rest.last, mine + rest.rows)
  }
}

=== FILE: fields.dfy ===
/** The per-user `user_data` dictionary and the keys the dialogue stores in it. */
module Fields {
  import opened Wrappers

  /** `context.user_data`: string keys to the text the user supplied. */
  type UserData = map<string, string>

  const ProblemTypeKey: string := "problem_type"
  const FioKey: string := "fio"
  const FloorKey: string := "floor"
  const ApartmentKey: string := "apartment"
  const HouseNumberKey: string := "house_number"
  const IntercomKey: string := "intercom"
  /** Written by the floor keyboard handler and never read by anyone. */
  const StepKey: string := "step"

  /** The fields the details step asks for one at a time, in asking order;
      the intercom number is the last answer and completes the report. */
  const DetailOrder: seq<string> := [FioKey, FloorKey, ApartmentKey, HouseNumberKey]

  /** The first of `keys` that `data` lacks, if any. */
  function FirstMissing(keys: seq<string>, data: UserData): (r: Option<string>)
    ensures r.None? <==> forall k :: k in keys ==> k in data
    ensures r.Some? ==> exists i :: 0 <= i < |keys| && keys[i] == r.value && r.value !in data
                                    && forall j :: 0 <= j < i ==> keys[j] in data
    decreases |keys|
  {
    if |keys| == 0 then None
    else if keys[0] !in data then Some(keys[0])
    else
      var r := FirstMissing(keys[1..], data);
      assert r.Some? ==> exists i :: 0 <= i < |keys[1..]| && keys[1..][i] == r.value && r.value !in data
                                     && forall j :: 0 <= j < i ==> keys[1..][j] in data;
      assert r.None? ==> forall k :: k in keys[1..] ==> k in data;
      assert keys == [keys[0]] + keys[1..];
      r
  }

  /** `FirstMissing` over the asking order, spelled out: the prompt the
      details step is at. */
  lemma FirstMissingInOrder(data: UserData)
    ensures FioKey !in data ==> FirstMissing(DetailOrder, data) == Some(FioKey)
    ensures FioKey in data && FloorKey !in data ==> FirstMissing(DetailOrder, data) == Some(FloorKey)
    ensures FioKey in data && FloorKey in data && ApartmentKey !in data
            ==> FirstMissing(DetailOrder, data) == Some(ApartmentKey)
    ensures FioKey in data && FloorKey in data && ApartmentKey in data && HouseNumberKey !in data
            ==> FirstMissing(DetailOrder, data) == Some(HouseNumberKey)
    ensures FioKey in data && FloorKey in data && ApartmentKey in data && HouseNumberKey in data
            ==> FirstMissing(DetailOrder, data) == None
  {
    var rest1 := DetailOrder[1..];
    var rest2 := rest1[1..];
    var rest3 := rest2[1..];
    assert rest1 == [FloorKey, ApartmentKey, HouseNumberKey];
    assert rest2 == [ApartmentKey, HouseNumberKey];
    assert rest3 == [HouseNumberKey];
    if FioKey in data && FloorKey in data {
      assert FirstMissing(DetailOrder, data) == FirstMissing(rest2, data);
    }
  }
}

=== FILE: handlers.dfy ===
/** The bot's update handlers, each a pure function of the callback data or
    message text and `user_data`. A handler's result says what it returns to
    the conversation handler, the new `user_data`, the messages it sends and
    the row that reached the spreadsheet. */
module Handlers {
  import opened Wrappers
  import opened Strings
  import opened Fields
  import opened Patterns
  import opened Report
  import Catalog

  /** The conversation states `PROBLEM_TYPE`, `USER_DETAILS`, `OTHER_PROBLEM`. */
  datatype State = ProblemType | OtherProblem | UserDetails

  /** A handler's return value: `None`, a state, or `ConversationHandler.END`. */
  datatype Ret = Keep | Goto(state: State) | End

  /** The messages the bot sends or edits in, one tag per distinct text. */
  datatype Reply =
    | ShowMainMenu | ShowCategories(buttons: seq<Catalog.Button>) | ShowSupport | ChatCleared
    | AskProblemText | AskFio | AskFloor | BadFloor | AskApartment | AskHouseNumber | AskIntercom
    | FloorChosen(floor: string) | AskFloorManually
    | SaveFailed | Submitted
    | HelpText | ClearUnavailable

  datatype Outcome = Outcome(ret: Ret, data: UserData, replies: seq<Reply>, saved: Option<Row>)

  const HouseProblem: string := "house_problem"
  const Support: string := "support"
  const ClearChat: string := "clear_chat"
  const BackToStart: string := "back_to_start"
  const OtherProblemChoice: string := "other_problem"

  /** `a` and `b` hold the same entries outside `keys`. */
  ghost predicate AgreeExcept(a: UserData, b: UserData, keys: set<string>)
  {
    forall k :: k !in keys ==> (k in a <==> k in b) && (k in a ==> a[k] == b[k])
  }

  /** `/start`, also reached from the "back" button: forget everything, show
      the main menu, leave the conversation. */
  function Start(data: UserData): (o: Outcome)
    ensures o.ret == End && o.data == map[] && o.saved == None
  {
    Outcome(End, map[], [ShowMainMenu], None)
  }

  /** The main-menu buttons. Only "house_problem" enters the dialogue and
      only "back_to_start" touches `user_data`. */
  function ButtonClick(callback: string, data: UserData): (o: Outcome)
    ensures o.ret == End <==> callback == BackToStart
    ensures o.ret.Goto? <==> callback == HouseProblem
    ensures o.ret.Goto? ==> o.ret.state == ProblemType && o.replies == [ShowCategories(Catalog.CategoryMenu)]
    ensures callback == BackToStart ==> o.data == map[]
    ensures callback != BackToStart ==> o.data == data
    ensures o.saved == None
  {
    if callback == HouseProblem then Outcome(Goto(ProblemType), data, [ShowCategories(Catalog.CategoryMenu)], None)
    else if callback == Support then Outcome(Keep, data, [ShowSupport], None)
    else if callback == ClearChat then Outcome(Keep, data, [ChatCleared], None)
    else if callback == BackToStart then Start(data)
    else Outcome(Keep, data, [], None)
  }

  /** A button of the category menu. "other_problem" asks for free text and
      leaves `user_data` alone; "back_to_start" resets; any other callback is
      taken as a category and its label (or the id itself) becomes the
      problem type, with nothing else changed. */
  function SelectProblemType(callback: string, data: UserData): (o: Outcome)
    ensures callback == BackToStart ==> o.ret == End && o.data == map[]
    ensures callback == OtherProblemChoice ==> o.ret == Goto(OtherProblem) && o.data == data
    ensures callback != BackToStart && callback != OtherProblemChoice ==>
              && o.ret == Goto(UserDetails)
              && ProblemTypeKey in o.data && o.data[ProblemTypeKey] == Catalog.Lookup(callback)
              && AgreeExcept(o.data, data, {ProblemTypeKey})
    ensures o.saved == None
  {
    if callback == BackToStart then Start(data)
    else if callback == OtherProblemChoice then Outcome(Goto(OtherProblem), data, [AskProblemText], None)
    else Outcome(Goto(UserDetails), data[ProblemTypeKey := Catalog.Lookup(callback)], [AskFio], None)
  }

  /** The free-text description of an "other" problem becomes the problem
      type verbatim. */
  function GetOtherProblem(text: string, data: UserData): (o: Outcome)
    ensures o.ret == Goto(UserDetails)
    ensures ProblemTypeKey in o.data && o.data[ProblemTypeKey] == text
    ensures AgreeExcept(o.data, data, {ProblemTypeKey})
    ensures o.saved == None
  {
    Outcome(Goto(UserDetails), data[ProblemTypeKey := text], [AskFio], None)
  }

  /** The last answer: store the intercom number, try to append the row,
      confirm and forget the session whether or not the row was written. */
  function Submit(text: string, data: UserData, now: string, storeOk: bool): (o: Outcome)
    ensures o.ret == End && o.data == map[]
    ensures o.replies == (if o.saved.Some? then [Submitted] else [SaveFailed, Submitted])
    ensures o.saved.Some? <==> storeOk && BuildRow(now, data[IntercomKey := text]).Some?
    ensures o.saved.Some? ==> o.saved == BuildRow(now, data[IntercomKey := text])
    ensures o.saved.Some? ==> |o.saved.value| == |Header| && o.saved.value[|Header| - 2] == text
  {
    var row := BuildRow(now, data[IntercomKey := text]);
    if storeOk && row.Some? then Outcome(End, map[], [Submitted], row)
    else Outcome(End, map[], [SaveFailed, Submitted], None)
  }

  /** One text answer in the details step. The field filled is the first of
      fio, floor, apartment, house number that is missing; a floor must be
      digits or the answer is refused with nothing changed. With all four
      present the answer is the intercom number and completes the complaint:
      the row holds the timestamp, the four fields, the answer and the
      problem type, and is written only when the store works and a problem
      type is on record; either way the user is told it was sent and
      `user_data` is emptied. */
  function GetUserDetails(text: string, data: UserData, now: string, storeOk: bool): (o: Outcome)
    ensures var m := FirstMissing(DetailOrder, data);
            m.Some? && (m.value != FloorKey || IsDigits(text)) ==>
              o.ret == Goto(UserDetails) && o.data == data[m.value := text] && o.saved == None
    ensures FirstMissing(DetailOrder, data) == Some(FloorKey) && !IsDigits(text) ==>
              o.ret == Goto(UserDetails) && o.data == data && o.replies == [BadFloor] && o.saved == None
    ensures FirstMissing(DetailOrder, data).None? ==>
              && o.ret == End && o.data == map[]
              && o.replies == (if o.saved.Some? then [Submitted] else [SaveFailed, Submitted])
              && (o.saved.Some? <==> storeOk && ProblemTypeKey in data)
              && (o.saved.Some? ==> o.saved.value == [now, data[FioKey], data[FloorKey], data[ApartmentKey],
                                                      data[HouseNumberKey], text, data[ProblemTypeKey]])
  {
    FirstMissingInOrder(data);
    if FioKey !in data then
      Outcome(Goto(UserDetails), data[FioKey := text], [AskFloor], None)
    else if FloorKey !in data then
      if !IsDigits(text) then Outcome(Goto(UserDetails), data, [BadFloor], None)
      else Outcome(Goto(UserDetails), data[FloorKey := text], [AskApartment], None)
    else if ApartmentKey !in data then
      Outcome(Goto(UserDetails), data[ApartmentKey := text], [AskHouseNumber], None)
    else if HouseNumberKey !in data then
      Outcome(Goto(UserDetails), data[HouseNumberKey := text], [AskIntercom], None)
    else
      Submit(text, data, now, storeOk)
  }

  /** A floor button or "enter manually". A floor button stores the text
      after "floor_" as the floor, whatever else is or is not filled in, and
      notes the step; "manual_floor" only notes the step. */
  function FloorKeyboardHandler(callback: string, data: UserData): (o: Outcome)
    ensures MatchesFloor(callback) ==>
              && o.ret == Goto(UserDetails)
              && FloorKey in o.data && o.data[FloorKey] == callback[|FloorPrefix|..]
              && IsDigits(o.data[FloorKey])
              && AgreeExcept(o.data, data, {FloorKey, StepKey})
    ensures callback == ManualFloor ==>
              o.ret == Goto(UserDetails) && AgreeExcept(o.data, data, {StepKey})
    ensures !MatchesFloorKeyboard(callback) && !StartsWith(callback, FloorPrefix) ==>
              o.ret == Keep && o.data == data
    ensures o.saved == None
  {
    assert !StartsWith(ManualFloor, FloorPrefix) by {
      assert ManualFloor[..|FloorPrefix|][0] != FloorPrefix[0];
    }
    if StartsWith(callback, FloorPrefix) then ChooseFloor(callback, data)
    else if callback == ManualFloor then
      Outcome(Goto(UserDetails), data[StepKey := "floor"], [AskFloorManually], None)
    else
      Outcome(Keep, data, [], None)
  }

  /** The floor-button branch: `callback.split("_")[1]` becomes the floor. */
  function ChooseFloor(callback: string, data: UserData): (o: Outcome)
    requires StartsWith(callback, FloorPrefix)
    ensures o.ret == Goto(UserDetails) && o.saved == None
    ensures FloorKey in o.data && AgreeExcept(o.data, data, {FloorKey, StepKey})
    ensures MatchesFloor(callback) ==> o.data[FloorKey] == callback[|FloorPrefix|..] && IsDigits(o.data[FloorKey])
  {
    var floor := FloorOf(callback);
    assert MatchesFloor(callback) ==> floor == callback[|FloorPrefix|..] && IsDigits(floor) by {
      if MatchesFloor(callback) { FloorOfMatched(callback); }
    }
    Outcome(Goto(UserDetails), data[FloorKey := floor][StepKey := "apartment"],
            [FloorChosen(floor), AskApartment], None)
  }

  /** `/help`: static text. */
  function HelpCommand(data: UserData): (o: Outcome)
    ensures o.ret == Keep && o.data == data && o.saved == None
  {
    Outcome(Keep, data, [HelpText], None)
  }

  /** `/clear`: a static apology. */
  function ClearCommand(data: UserData): (o: Outcome)
    ensures o.ret == Keep && o.data == data && o.saved == None
  {
    Outcome(Keep, data, [ClearUnavailable], None)
  }
}

=== FILE: patterns.dfy ===
/** The callback filter `^floor_\d+$|^manual_floor$` that guards the floor
    keyboard handler, and the floor number that handler extracts. */
module Patterns {
  import opened Strings

  const FloorPrefix: string := "floor_"
  const ManualFloor: string := "manual_floor"

  /** `^floor_\d+$` as `re.match` reads it: Python's `$` matches at the end of
      the string and also just before a final newline, so one trailing '\n'
      after the digits is admitted. */
  predicate MatchesFloorAsWritten(data: string)
    ensures MatchesFloorAsWritten(data) ==> StartsWith(data, FloorPrefix) && |data| > |FloorPrefix|
    ensures MatchesFloorAsWritten(data) ==> data != ManualFloor
  {
    StartsWith(data, FloorPrefix) &&
    var tail := data[|FloorPrefix|..];
    IsDigits(tail) || (|tail| >= 2 && tail[|tail| - 1] == '\n' && IsDigits(tail[..|tail| - 1]))
  }

  /** `^floor_\d+$` read as a whole-string match: the prefix and then digits only. */
  predicate MatchesFloor(data: string)
    ensures MatchesFloor(data) ==> MatchesFloorAsWritten(data)
    ensures MatchesFloor(data) ==> '\n' !in data[|FloorPrefix|..] && '_' !in data[|FloorPrefix|..]
  {
    StartsWith(data, FloorPrefix) && IsDigits(data[|FloorPrefix|..])
  }

  /** The callbacks routed to the floor keyboard handler. */
  predicate MatchesFloorKeyboard(data: string)
    ensures MatchesFloorKeyboard(data) ==> MatchesFloorAsWritten(data) || data == ManualFloor
    ensures MatchesFloorKeyboard(data) && StartsWith(data, FloorPrefix) ==> IsDigits(data[|FloorPrefix|..])
  {
    assert !StartsWith(ManualFloor, FloorPrefix) by { assert ManualFloor[0] != FloorPrefix[0]; }
    MatchesFloor(data) || data == ManualFloor
  }

  /** `data.split("_")[1]`. Every string that starts with "floor_" has a
      second piece, so the index never fails on the handler's own branch. */
  function FloorOf(data: string): (floor: string)
    requires StartsWith(data, FloorPrefix)
    ensures '_' !in floor
    ensures StartsWith(data[|FloorPrefix|..], floor)
    ensures var tail := data[|FloorPrefix|..]; |floor| == |tail| || tail[|floor|] == '_'
  {
    var tail := data[|FloorPrefix|..];
    assert data == "floor" + ['_'] + tail;
    SplitAfterHead("floor", '_', tail);
    SplitHeadEnds(tail, '_');
    Split(data, '_')[1]
  }

  /** What the corrected filter admits carries a floor made of digits only:
      the whole text after "floor_". */
  lemma FloorOfMatched(data: string)
    requires MatchesFloor(data)
    ensures FloorOf(data) == data[|FloorPrefix|..]
    ensures IsDigits(FloorOf(data))
  {
    var tail := data[|FloorPrefix|..];
    assert '_' !in tail by {
      forall i | 0 <= i < |tail| ensures tail[i] != '_' {
        assert IsDigitChar(tail[i]);
      }
    }
    SplitNoSeparator(tail, '_');
    assert data == "floor" + ['_'] + tail;
    SplitAfterHead("floor", '_', tail);
  }

  /** The filter as written lets "floor_3\n" through, and the floor it yields
      is "3\n", which is not a digit string. */
  lemma AsWrittenAdmitsTrailingNewline()
    ensures MatchesFloorAsWritten("floor_3\n")
    ensures !MatchesFloor("floor_3\n")
    ensures FloorOf("floor_3\n") == "3\n"
    ensures !IsDigits(FloorOf("floor_3\n"))
  {
    var data := "floor_3\n";
    assert data[|FloorPrefix|..] == "3\n";
    assert "3\n"[..1] == "3";
    SplitNoSeparator("3\n", '_');
  }

  /** The two readings differ only on strings ending in a newline. */
  lemma AsWrittenDiffersOnlyByNewline(data: string)
    requires MatchesFloorAsWritten(data) && !MatchesFloor(data)
    ensures |data| > 0 && data[|data| - 1] == '\n'
    ensures MatchesFloor(data[..|data| - 1])
  {
    var tail := data[|FloorPrefix|..];
    var short := data[..|data| - 1];
    assert short[..|FloorPrefix|] == data[..|FloorPrefix|];
    assert short[|FloorPrefix|..] == tail[..|tail| - 1];
  }
}

=== FILE: properties.dfy ===
/** What the dialogue guarantees, one update at a time and over whole runs. */
module Properties {
  import opened Wrappers
  import opened Strings
  import opened Fields
  import opened Patterns
  import opened Report
  import opened Handlers
  import opened Conversation
  import Catalog

  /** "/start" in any state, inside the conversation or outside it, forgets
      everything and leaves the conversation. */
  lemma StartResets(d: Dialogue, env: Env)
    ensures Step(d, Command("start"), env).next == Initial
    ensures Step(d, Command("start"), env).saved == None
  {
  }

  /** "back_to_start" from the main menu or the category menu forgets
      everything and leaves the conversation. */
  lemma BackToStartEnds(d: Dialogue, env: Env)
    requires d.conv == Outside || d.conv == In(ProblemType)
    ensures Step(d, Callback(BackToStart), env).next == Initial
  {
  }

  /** "house_problem" from outside opens the category menu; nothing is stored. */
  lemma OpenCategories(data: UserData, env: Env)
    ensures Step(Dialogue(Outside, data), Callback(HouseProblem), env).next == Dialogue(In(ProblemType), data)
  {
  }

  /** A category button of the menu "house_problem" shows stores, as the
      problem type, exactly the text the resident saw on that button. */
  lemma PressedCategoryStoresItsText(data: UserData, env: Env, i: int)
    requires 0 <= i < 6
    ensures var shown := Step(Dialogue(Outside, data), Callback(HouseProblem), env);
            && shown.replies == [ShowCategories(Catalog.CategoryMenu)]
            && var b := Catalog.CategoryMenu[i];
               var r := Step(shown.next, Callback(b.callback), env);
               r.next == Dialogue(In(UserDetails), data[ProblemTypeKey := b.text])
  {
    Catalog.MenuLabels();
    var b := Catalog.CategoryMenu[i];
    assert b.callback != BackToStart && b.callback != OtherProblemChoice;
    assert Catalog.Lookup(b.callback) == b.text;
  }

  /** "other_problem" moves to the free-text state and leaves `user_data` alone. */
  lemma ChooseOtherProblem(data: UserData, env: Env)
    ensures Step(Dialogue(In(ProblemType), data), Callback(OtherProblemChoice), env).next
            == Dialogue(In(OtherProblem), data)
  {
  }

  /** Any other button in the category menu records its label (or, unknown,
      the id itself) as the problem type and asks for the details. */
  lemma ChooseCategory(data: UserData, callback: string, env: Env)
    requires callback != BackToStart && callback != OtherProblemChoice
    ensures var r := Step(Dialogue(In(ProblemType), data), Callback(callback), env);
            && r.next.conv == In(UserDetails)
            && r.next.data == data[ProblemTypeKey := Catalog.Lookup(callback)]
            && (callback in Catalog.Translations ==> r.next.data[ProblemTypeKey] == Catalog.Translations[callback])
            && (callback !in Catalog.Translations ==> r.next.data[ProblemTypeKey] == callback)
  {
  }

  /** A message whose text is empty passes no text filter and no other
      handler: wherever the dialogue stands, nothing changes and nothing is
      sent or written. The lemmas below about typed answers are therefore
      stated for non-empty text. */
  lemma EmptyTextIgnored(d: Dialogue, env: Env)
    ensures Step(d, Text(""), env) == StepResult(d, [], None)
    ensures forall t :: Step(d, Text(t), env).saved.Some? ==> t != ""
  {
  }

  /** A text message in the free-text state becomes the problem type
      verbatim; nothing else changes. */
  lemma DescribeOtherProblem(data: UserData, text: string, env: Env)
    requires text != ""
    ensures Step(Dialogue(In(OtherProblem), data), Text(text), env).next
            == Dialogue(In(UserDetails), data[ProblemTypeKey := text])
  {
  }

  /** An accepted detail adds exactly one key, the first missing one in the
      order fio, floor, apartment, house number, and the state stays put. */
  lemma DetailAdded(data: UserData, text: string, env: Env)
    requires text != ""
    requires FirstMissing(DetailOrder, data).Some?
    requires FirstMissing(DetailOrder, data) != Some(FloorKey) || IsDigits(text)
    ensures var k := FirstMissing(DetailOrder, data).value;
            var r := Step(Dialogue(In(UserDetails), data), Text(text), env);
            && k !in data
            && r.next == Dialogue(In(UserDetails), data[k := text])
            && r.next.data.Keys == data.Keys + {k}
            && |r.next.data| == |data| + 1
            && r.saved == None
  {
    var k := FirstMissing(DetailOrder, data).value;
    assert (data[k := text]).Keys == data.Keys + {k};
  }

  /** A typed floor that is not all digits is refused: state and `user_data`
      stay as they were and the user is asked again. */
  lemma FloorRejected(data: UserData, text: string, env: Env)
    requires text != ""
    requires FioKey in data && FloorKey !in data
    requires !IsDigits(text)
    ensures var d := Dialogue(In(UserDetails), data);
            Step(d, Text(text), env) == StepResult(d, [BadFloor], None)
  {
    FirstMissingInOrder(data);
  }

  /** With fio, floor, apartment and house number on record, the next text is
      the intercom number: the complaint is confirmed, `user_data` emptied
      and the conversation left whether or not saving worked; the row is
      written exactly when the store works and a problem type is on record,
      and holds the seven columns in header order. */
  lemma Complete(data: UserData, text: string, env: Env)
    requires text != ""
    requires FioKey in data && FloorKey in data && ApartmentKey in data && HouseNumberKey in data
    ensures var r := Step(Dialogue(In(UserDetails), data), Text(text), env);
            && r.next == Initial
            && r.replies == (if r.saved.Some? then [Submitted] else [SaveFailed, Submitted])
            && (r.saved.Some? <==> env.storeOk && ProblemTypeKey in data)
            && (r.saved.Some? ==>
                  && |r.saved.value| == |Header|
                  && r.saved.value == [env.now, data[FioKey], data[FloorKey], data[ApartmentKey],
                                       data[HouseNumberKey], text, data[ProblemTypeKey]])
  {
    FirstMissingInOrder(data);
  }

  /** "manual_floor" changes nothing the details step reads and keeps the state. */
  lemma ManualFloorKeepsFields(data: UserData, env: Env)
    ensures var r := Step(Dialogue(In(UserDetails), data), Callback(ManualFloor), env);
            && r.next.conv == In(UserDetails)
            && forall k :: k in [ProblemTypeKey, FioKey, FloorKey, ApartmentKey, HouseNumberKey, IntercomKey] ==>
                 (k in r.next.data <==> k in data) && (k in data ==> r.next.data[k] == data[k])
  {
  }

  /** A floor button in the details step stores the floor even before the
      name is given, and the name is still asked for next. */
  lemma FloorButtonBeforeFio(data: UserData, callback: string, text: string, env: Env)
    requires MatchesFloor(callback)
    requires FioKey !in data
    requires text != ""
    ensures var r := Step(Dialogue(In(UserDetails), data), Callback(callback), env);
            && r.next.conv == In(UserDetails)
            && FloorKey in r.next.data && FioKey !in r.next.data
            && Step(r.next, Text(text), env).next.data == r.next.data[FioKey := text]
  {
    var r := Step(Dialogue(In(UserDetails), data), Callback(callback), env);
    assert FioKey !in r.next.data;
    FirstMissingInOrder(r.next.data);
  }

  /** "back_to_start" pressed while the free-text or details step is waiting
      is declined by the conversation and reaches the main-menu handler: it
      empties `user_data`, but the conversation keeps its state. */
  lemma BackInsideClearsOnlyData(st: State, data: UserData, env: Env)
    requires st == OtherProblem || st == UserDetails
    ensures Step(Dialogue(In(st), data), Callback(BackToStart), env).next == Dialogue(In(st), map[])
  {
  }

  /** Updates the current state has no handler for change neither state nor
      data: text outside or in the category menu, commands other than
      "/start", and, in the free-text and details steps, buttons other than
      "back_to_start" and the floor keyboard. */
  lemma UnhandledKeepsDialogue(d: Dialogue, e: Event, env: Env)
    requires || (e.Text? && (d.conv == Outside || d.conv == In(ProblemType)))
             || (e.Command? && e.name != "start")
             || (e.Callback? && e.callback != BackToStart && !MatchesFloorKeyboard(e.callback)
                 && (d.conv == In(OtherProblem) || d.conv == In(UserDetails)))
    ensures Step(d, e, env).next == d
    ensures Step(d, e, env).saved == None
  {
  }

  /** The data two dialogues would have if their "step" entries were dropped. */
  function WithoutStep(data: UserData): (rest: UserData)
    ensures rest.Keys == data.Keys - {StepKey}
    ensures forall k :: k in rest ==> rest[k] == data[k]
  {
    data - {StepKey}
  }

  /** The "step" entry is never read: a dialogue that differs only in it
      takes the same transition, sends the same messages, writes the same
      row and again differs only in "step". */
  lemma StepKeyIgnored(d: Dialogue, e: Event, env: Env, v: string)
    ensures var a := Step(d, e, env);
            var b := Step(Dialogue(d.conv, d.data[StepKey := v]), e, env);
            && a.next.conv == b.next.conv
            && a.replies == b.replies
            && a.saved == b.saved
            && WithoutStep(a.next.data) == WithoutStep(b.next.data)
  {
    ConversationIgnoresStep(d.conv, e, d.data, env, v);
    ApplicationIgnoresStep(e, d.data, v);
  }

  /** Two handler results that differ at most in the "step" entry. */
  ghost predicate SameUpToStep(a: Option<Outcome>, b: Option<Outcome>)
  {
    && a.Some? == b.Some?
    && (a.Some? ==> && a.value.ret == b.value.ret && a.value.replies == b.value.replies
                    && a.value.saved == b.value.saved
                    && WithoutStep(a.value.data) == WithoutStep(b.value.data))
  }

  lemma ConversationIgnoresStep(conv: Conv, e: Event, data: UserData, env: Env, v: string)
    ensures SameUpToStep(ConversationHandler(conv, e, data, env),
                         ConversationHandler(conv, e, data[StepKey := v], env))
  {
    WithoutStepUpdate(data, ProblemTypeKey, "", v);
    match conv
    case Outside =>
    case In(ProblemType) =>
      if e.Callback? {
        WithoutStepUpdate(data, ProblemTypeKey, Catalog.Lookup(e.callback), v);
      }
    case In(OtherProblem) =>
      if e.Text? {
        WithoutStepUpdate(data, ProblemTypeKey, e.text, v);
      }
    case In(UserDetails) =>
      match e
      case Text(t) => DetailsIgnoreStep(data, t, env, v);
      case Callback(c) =>
        if MatchesFloorKeyboard(c) {
          FloorKeyboardIgnoresStep(data, c, v);
        }
      case Command(n) =>
  }

  lemma ApplicationIgnoresStep(e: Event, data: UserData, v: string)
    ensures SameUpToStep(ApplicationHandler(e, data), ApplicationHandler(e, data[StepKey := v]))
  {
    WithoutStepUpdate(data, ProblemTypeKey, "", v);
  }

  /** `WithoutStep` is blind to a "step" update and commutes with any other. */
  lemma WithoutStepUpdate(data: UserData, k: string, x: string, v: string)
    requires k != StepKey
    ensures WithoutStep(data[StepKey := v]) == WithoutStep(data)
    ensures WithoutStep(data[StepKey := v][k := x]) == WithoutStep(data[k := x])
  {
  }

  /** A text answer in the details step does not depend on "step". */
  lemma DetailsIgnoreStep(data: UserData, text: string, env: Env, v: string)
    ensures var a := GetUserDetails(text, data, env.now, env.storeOk);
            var b := GetUserDetails(text, data[StepKey := v], env.now, env.storeOk);
            && a.ret == b.ret && a.replies == b.replies && a.saved == b.saved
            && WithoutStep(a.data) == WithoutStep(b.data)
  {
    var data' := data[StepKey := v];
    FirstMissingInOrder(data);
    FirstMissingInOrder(data');
    WithoutStepUpdate(data, FioKey, text, v);
    WithoutStepUpdate(data, FloorKey, text, v);
    WithoutStepUpdate(data, ApartmentKey, text, v);
    WithoutStepUpdate(data, HouseNumberKey, text, v);
    assert BuildRow(env.now, data[IntercomKey := text]) == BuildRow(env.now, data'[IntercomKey := text]);
  }

  /** The floor keyboard does not depend on "step". */
  lemma FloorKeyboardIgnoresStep(data: UserData, callback: string, v: string)
    ensures var a := FloorKeyboardHandler(callback, data);
            var b := FloorKeyboardHandler(callback, data[StepKey := v]);
            && a.ret == b.ret && a.replies == b.replies && a.saved == b.saved
            && WithoutStep(a.data) == WithoutStep(b.data)
  {
    if StartsWith(callback, FloorPrefix) {
      var f := FloorOf(callback);
      assert data[StepKey := v][FloorKey := f][StepKey := "apartment"] == data[FloorKey := f][StepKey := "apartment"];
    } else if callback == ManualFloor {
      assert data[StepKey := v][StepKey := "floor"] == data[StepKey := "floor"];
    }
  }

  /** Were the floor keyboard filter read as written, the button data
      "floor_3\n" would reach the handler, which stores the floor "3\n", a
      value the typed-floor check refuses. */
  lemma AsWrittenFilterStoresBadFloor(data: UserData)
    ensures MatchesFloorAsWritten("floor_3\n")
    ensures var o := FloorKeyboardHandler("floor_3\n", data);
            o.ret == Goto(UserDetails) && FloorKey in o.data && o.data[FloorKey] == "3\n"
            && !IsDigits(o.data[FloorKey])
  {
    AsWrittenAdmitsTrailingNewline();
  }

  /** The manual-entry button pattern `^manual_floor$` also admits
      "manual_floor\n" under `re.match`; the handler has no branch for it and
      leaves the conversation and `user_data` as they were. */
  lemma ManualFloorNewlineIgnored(data: UserData)
    ensures var o := FloorKeyboardHandler(ManualFloor + "\n", data);
            o.ret == Keep && o.data == data && o.replies == [] && o.saved == None
  {
    assert (ManualFloor + "\n")[0] != FloorPrefix[0];
  }

  /** The dialogue invariant: outside the details step `user_data` is empty;
      only the keys the dialogue writes ever appear, the intercom number
      never lingers; a stored floor is a digit string. */
  ghost predicate Wf(d: Dialogue)
  {
    && (d.conv != In(UserDetails) ==> d.data == map[])
    && d.data.Keys <= {ProblemTypeKey, FioKey, FloorKey, ApartmentKey, HouseNumberKey, StepKey}
    && (FloorKey in d.data ==> IsDigits(d.data[FloorKey]))
    && (FioKey in d.data ==> d.data[FioKey] != "")
    && (ApartmentKey in d.data ==> d.data[ApartmentKey] != "")
    && (HouseNumberKey in d.data ==> d.data[HouseNumberKey] != "")
  }

  /** A written row: the header's width, a digit-only floor, and none of the
      typed columns (fio, apartment, house number, intercom) empty. */
  ghost predicate WellFormedRow(row: Row)
  {
    && |row| == |Header|
    && IsDigits(row[2])
    && row[1] != "" && row[3] != "" && row[4] != "" && row[5] != ""
  }

  /** Every update keeps the invariant, and a row written from it has the
      header's width and a digit-only floor column. */
  lemma StepPreservesWf(d: Dialogue, e: Event, env: Env)
    requires Wf(d)
    ensures Wf(Step(d, e, env).next)
    ensures var s := Step(d, e, env).saved;
            s.Some? ==> WellFormedRow(s.value)
  {
    if d.conv == In(UserDetails) {
      match e
      case Text(t) => DetailsTextWf(d.data, t, env);
      case Callback(c) =>
        if MatchesFloor(c) {
          FloorOfMatched(c);
        }
      case Command(n) =>
    }
  }

  /** The invariant across one text answer in the details step. */
  lemma DetailsTextWf(data: UserData, text: string, env: Env)
    requires Wf(Dialogue(In(UserDetails), data))
    ensures Wf(Step(Dialogue(In(UserDetails), data), Text(text), env).next)
    ensures var s := Step(Dialogue(In(UserDetails), data), Text(text), env).saved;
            s.Some? ==> WellFormedRow(s.value)
  {
    FirstMissingInOrder(data);
  }

  /** The rows a run writes all have the header's width and a floor made of
      digits, and the run ends in a dialogue that keeps the invariant. */
  lemma {:induction false} RunRowsWellFormed(d: Dialogue, inputs: seq<Input>)
    requires Wf(d)
    ensures Wf(Run(d, inputs).last)
    ensures forall r :: r in Run(d, inputs).rows ==> WellFormedRow(r)
    decreases |inputs|
  {
    if |inputs| > 0 {
      var s := Step(d, inputs[0].event, inputs[0].env);
      StepPreservesWf(d, inputs[0].event, inputs[0].env);
      RunRowsWellFormed(s.next, inputs[1..]);
    }
  }

  /** Every row a run writes has the header's width and is stamped with the
      time of a text update that arrived while the spreadsheet worked. */
  lemma {:induction false} RunRowsStamped(d: Dialogue, inputs: seq<Input>)
    ensures forall row :: row in Run(d, inputs).rows ==>
              && |row| == |Header|
              && exists i :: 0 <= i < |inputs| && inputs[i].event.Text? && inputs[i].env.storeOk
                             && row[0] == inputs[i].env.now
    decreases |inputs|
  {
    if |inputs| > 0 {
      var s := Step(d, inputs[0].event, inputs[0].env);
      var rest := Run(s.next, inputs[1..]);
      RunRowsStamped(s.next, inputs[1..]);
      RunCons(d, inputs[0], inputs[1..]);
      assert [inputs[0]] + inputs[1..] == inputs;
      forall row | row in Run(d, inputs).rows
        ensures |row| == |Header|
        ensures exists i :: 0 <= i < |inputs| && inputs[i].event.Text? && inputs[i].env.storeOk
                            && row[0] == inputs[i].env.now
      {
        if row in rest.rows {
          var j :| 0 <= j < |inputs[1..]| && inputs[1..][j].event.Text? && inputs[1..][j].env.storeOk
                   && row[0] == inputs[1..][j].env.now;
          assert inputs[j + 1] == inputs[1..][j];
        } else {
          assert s.saved == Some(row);
        }
      }
    }
  }

  /** A bot that starts fresh, whatever updates it then receives, ends in a
      dialogue that keeps the invariant and has written only rows of the
      header's width whose floor is a digit string. */
  lemma RunFromInitialWellFormed(inputs: seq<Input>)
    ensures Wf(Run(Initial, inputs).last)
    ensures forall r :: r in Run(Initial, inputs).rows ==> WellFormedRow(r)
  {
    RunRowsWellFormed(Initial, inputs);
  }

  /** "/start" discards whatever was half-entered: what follows runs exactly
      as from a fresh start. */
  lemma StartDiscardsResidue(d: Dialogue, env: Env, inputs: seq<Input>)
    ensures Run(d, [Input(Command("start"), env)] + inputs) == Run(Initial, inputs)
  {
    var all := [Input(Command("start"), env)] + inputs;
    assert all[1..] == inputs;
  }

  /** Unfolding one update off the front of a run. */
  lemma RunCons(d: Dialogue, i: Input, rest: seq<Input>)
    ensures var r := Step(d, i.event, i.env);
            var tail := Run(r.next, rest);
            Run(d, [i] + rest)
            == RunResult(tail.last, (if r.saved.Some? then [r.saved.value] else []) + tail.rows)
  {
    assert ([i] + rest)[1..] == rest;
  }

  /** An accepted answer in the details step writes nothing and hands the
      rest of the run the data with that answer filed. */
  lemma AnswerRun(data: UserData, k: string, text: string, env: Env, rest: seq<Input>)
    requires FirstMissing(DetailOrder, data) == Some(k)
    requires text != "" && (k != FloorKey || IsDigits(text))
    ensures Run(Dialogue(In(UserDetails), data), [Input(Text(text), env)] + rest)
            == Run(Dialogue(In(UserDetails), data[k := text]), rest)
  {
    DetailAdded(data, text, env);
    RunCons(Dialogue(In(UserDetails), data), Input(Text(text), env), rest);
  }

  /** Five answers into a details step that holds at most the problem
      type, the floor in digits and the store working, end the dialogue and
      write exactly the row of those answers, or nothing when no problem
      type is on record. */
  lemma {:induction false} DetailsRun(start: UserData, fio: string, floor: string, apartment: string,
                                       house: string, intercom: string, env: Env)
    requires start.Keys <= {ProblemTypeKey}
    requires fio != "" && IsDigits(floor) && apartment != "" && house != "" && intercom != ""
    requires env.storeOk
    ensures Run(Dialogue(In(UserDetails), start),
                [Input(Text(fio), env), Input(Text(floor), env), Input(Text(apartment), env),
                 Input(Text(house), env), Input(Text(intercom), env)])
            == RunResult(Initial, if ProblemTypeKey in start
                                  then [[env.now, fio, floor, apartment, house, intercom, start[ProblemTypeKey]]]
                                  else [])
  {
    var m5 := start[FioKey := fio][FloorKey := floor][ApartmentKey := apartment][HouseNumberKey := house];
    AnswersRun(start, fio, floor, apartment, house, Input(Text(intercom), env), env);
    LastAnswerRun(start, m5, fio, floor, apartment, house, intercom, env);
  }

  /** The four answers before the last file fio, floor, apartment and house number in turn. */
  lemma AnswersRun(start: UserData, fio: string, floor: string, apartment: string, house: string,
                   last: Input, env: Env)
    requires start.Keys <= {ProblemTypeKey}
    requires fio != "" && IsDigits(floor) && apartment != "" && house != ""
    ensures Run(Dialogue(In(UserDetails), start),
                [Input(Text(fio), env), Input(Text(floor), env), Input(Text(apartment), env),
                 Input(Text(house), env), last])
            == Run(Dialogue(In(UserDetails),
                            start[FioKey := fio][FloorKey := floor][ApartmentKey := apartment][HouseNumberKey := house]),
                   [last])
  {
    var m2 := start[FioKey := fio];
    var m3 := m2[FloorKey := floor];
    var m4 := m3[ApartmentKey := apartment];
    var j1, j2, j3 := Input(Text(fio), env), Input(Text(floor), env), Input(Text(apartment), env);
    var j4 := Input(Text(house), env);
    assert FioKey !in start && FloorKey !in start && ApartmentKey !in start && HouseNumberKey !in start;
    assert FirstMissing(DetailOrder, start) == Some(FioKey) by { FirstMissingInOrder(start); }
    assert FirstMissing(DetailOrder, m2) == Some(FloorKey) by { FirstMissingInOrder(m2); }
    assert FirstMissing(DetailOrder, m3) == Some(ApartmentKey) by { FirstMissingInOrder(m3); }
    assert FirstMissing(DetailOrder, m4) == Some(HouseNumberKey) by { FirstMissingInOrder(m4); }
    var s4 := [last];
    var s3 := [j4] + s4;
    var s2 := [j3] + s3;
    var s1 := [j2] + s2;
    var s0 := [j1] + s1;
    assert s0 == [j1, j2, j3, j4, last];
    AnswerRun(m4, HouseNumberKey, house, env, s4);
    AnswerRun(m3, ApartmentKey, apartment, env, s3);
    AnswerRun(m2, FloorKey, floor, env, s2);
    AnswerRun(start, FioKey, fio, env, s1);
  }

  /** The intercom answer completes the complaint built from those answers. */
  lemma LastAnswerRun(start: UserData, m5: UserData, fio: string, floor: string, apartment: string,
                      house: string, intercom: string, env: Env)
    requires start.Keys <= {ProblemTypeKey}
    requires m5 == start[FioKey := fio][FloorKey := floor][ApartmentKey := apartment][HouseNumberKey := house]
    requires intercom != "" && env.storeOk
    ensures Run(Dialogue(In(UserDetails), m5), [Input(Text(intercom), env)])
            == RunResult(Initial, if ProblemTypeKey in start
                                  then [[env.now, fio, floor, apartment, house, intercom, start[ProblemTypeKey]]]
                                  else [])
  {
    var i := Input(Text(intercom), env);
    var r := Step(Dialogue(In(UserDetails), m5), i.event, i.env);
    Complete(m5, intercom, env);
    assert r.next == Initial;
    RunCons(Dialogue(In(UserDetails), m5), i, []);
    assert Run(Initial, []) == RunResult(Initial, []);
    if ProblemTypeKey in start {
      assert m5[ProblemTypeKey] == start[ProblemTypeKey];
      assert r.saved == Some([env.now, fio, floor, apartment, house, intercom, start[ProblemTypeKey]]);
    } else {
      assert ProblemTypeKey !in m5;
      assert r.saved == None;
    }
  }

  /** Pressing "back_to_start" on an old menu message while the details step
      waits loses the problem type: the five answers that follow are still
      confirmed, but no row is written. */
  lemma ConfirmedButNotSaved(data: UserData, fio: string, floor: string, apartment: string,
                             house: string, intercom: string, env: Env)
    requires fio != "" && IsDigits(floor) && apartment != "" && house != "" && intercom != ""
    requires env.storeOk
    ensures Run(Dialogue(In(UserDetails), data),
                [Input(Callback(BackToStart), env), Input(Text(fio), env), Input(Text(floor), env),
                 Input(Text(apartment), env), Input(Text(house), env), Input(Text(intercom), env)])
            == RunResult(Initial, [])
    ensures var left := map[FioKey := fio][FloorKey := floor][ApartmentKey := apartment][HouseNumberKey := house];
            Step(Dialogue(In(UserDetails), left), Text(intercom), env).replies == [SaveFailed, Submitted]
  {
    var left := map[FioKey := fio][FloorKey := floor][ApartmentKey := apartment][HouseNumberKey := house];
    assert ProblemTypeKey !in left;
    Complete(left, intercom, env);
    var answers := [Input(Text(fio), env), Input(Text(floor), env), Input(Text(apartment), env),
                    Input(Text(house), env), Input(Text(intercom), env)];
    BackInsideClearsOnlyData(UserDetails, data, env);
    DetailsRun(map[], fio, floor, apartment, house, intercom, env);
    RunCons(Dialogue(In(UserDetails), data), Input(Callback(BackToStart), env), answers);
  }

  /** A water-leak complaint from first button to last answer writes one row
      with the category's label and returns to the start. */
  lemma WaterLeakScenario(now: string)
    ensures var env := Env(now, true);
            var inputs := [Input(Callback(HouseProblem), env), Input(Callback("water_leak"), env),
                           Input(Text("Ivanov I.I."), env), Input(Text("3"), env), Input(Text("12"), env),
                           Input(Text("5"), env), Input(Text("101"), env)];
            Run(Initial, inputs)
            == RunResult(Initial, [[now, "Ivanov I.I.", "3", "12", "5", "101", "Протечка воды"]])
  {
    var env := Env(now, true);
    var i1, i2 := Input(Callback(HouseProblem), env), Input(Callback("water_leak"), env);
    var details := [Input(Text("Ivanov I.I."), env), Input(Text("3"), env), Input(Text("12"), env),
                    Input(Text("5"), env), Input(Text("101"), env)];
    Catalog.LookupKnown();
    assert IsDigits("3");
    DetailsRun(map[ProblemTypeKey := "Протечка воды"], "Ivanov I.I.", "3", "12", "5", "101", env);
    var m := map[ProblemTypeKey := "Протечка воды"];
    assert Step(Dialogue(In(ProblemType), map[]), i2.event, env)
           == StepResult(Dialogue(In(UserDetails), m), [AskFio], None);
    RunCons(Dialogue(In(ProblemType), map[]), i2, details);
    assert Step(Initial, i1.event, env)
           == StepResult(Dialogue(In(ProblemType), map[]), [ShowCategories(Catalog.CategoryMenu)], None);
    RunCons(Initial, i1, [i2] + details);
    assert [i1] + ([i2] + details) == [i1, i2] + details;
  }
}

=== FILE: report.dfy ===
/** The complaint spreadsheet: its header and the row a completed complaint becomes. */
module Report {
  import opened Wrappers
  import opened Fields

  /** One spreadsheet row, one string per column. */
  type Row = seq<string>

  /** The header written when the workbook is created. */
  const Header: Row := ["Дата", "ФИО", "Этаж", "Квартира", "Дом", "Домофон", "Проблема"]

  /** The `user_data` key behind each column after the date, in column order. */
  const ColumnKeys: seq<string> := [FioKey, FloorKey, ApartmentKey, HouseNumberKey, IntercomKey, ProblemTypeKey]

  /** The row appended for a finished complaint, `now` being the formatted
      timestamp. A missing field is the `KeyError` the save's `try` catches:
      no row. */
  function BuildRow(now: string, data: UserData): (row: Option<Row>)
    ensures row.Some? <==> forall k :: k in ColumnKeys ==> k in data
    ensures row.Some? ==> |row.value| == |Header| && row.value[0] == now
    ensures row.Some? ==> forall j :: 0 <= j < |ColumnKeys| ==> row.value[j + 1] == data[ColumnKeys[j]]
  {
    if FioKey in data && FloorKey in data && ApartmentKey in data && HouseNumberKey in data
       && IntercomKey in data && ProblemTypeKey in data
    then Some([now, data[FioKey], data[FloorKey], data[ApartmentKey], data[HouseNumberKey],
               data[IntercomKey], data[ProblemTypeKey]])
    else None
  }
}

=== FILE: strings.dfy ===
/** The string operations the bot relies on: `str.isdigit`, `str.startswith`
    and `str.split` with a one-character separator. */
module Strings {

  /** A decimal digit. Python's `str.isdigit` and the regex class `\d` accept
      every Unicode digit; this model accepts the ASCII ones only. */
  predicate IsDigitChar(c: char)
  {
    '0' <= c <= '9'
  }

  /** `s.isdigit()`: true of a non-empty string made of digits only. */
  predicate IsDigits(s: string)
    ensures IsDigits(s) ==> |s| > 0 && '\n' !in s && '_' !in s && ' ' !in s
  {
    |s| > 0 && forall i :: 0 <= i < |s| ==> IsDigitChar(s[i])
  }

  /** `s.startswith(prefix)` */
  predicate StartsWith(s: string, prefix: string)
    ensures StartsWith(s, prefix) <==> |prefix| <= |s| && s == prefix + s[|prefix|..]
  {
    |prefix| <= |s| && s[..|prefix|] == prefix
  }

  /** `s.split(sep)` for a one-character separator: the maximal
      separator-free pieces of `s`, in order, empty pieces included. */
  function Split(s: string, sep: char): (parts: seq<string>)
    ensures |parts| >= 1
    ensures forall k :: 0 <= k < |parts| ==> sep !in parts[k]
    decreases |s|
  {
    if |s| == 0 then [""]
    else
      var rest := Split(s[1..], sep);
      if s[0] == sep then [""] + rest
      else [[s[0]] + rest[0]] + rest[1..]
  }

  /** `sep.join(parts)`, the inverse of `Split`. */
  function Join(parts: seq<string>, sep: char): (s: string)
    decreases |parts|
  {
    if |parts| == 0 then ""
    else if |parts| == 1 then parts[0]
    else parts[0] + [sep] + Join(parts[1..], sep)
  }

  /** The first piece of a split runs up to the first separator, or to the
      end of the string when there is none. */
  lemma {:induction false} SplitHeadEnds(s: string, sep: char)
    ensures var head := Split(s, sep)[0];
            |head| <= |s| && s[..|head|] == head && (|head| == |s| || s[|head|] == sep)
  {
    if |s| > 0 && s[0] != sep {
      SplitHeadEnds(s[1..], sep);
      var rest := Split(s[1..], sep);
      assert Split(s, sep)[0] == [s[0]] + rest[0];
      assert s == [s[0]] + s[1..];
    }
  }

  /** Joining the pieces of a split gives back the original string. */
  lemma {:induction false} JoinSplit(s: string, sep: char)
    ensures Join(Split(s, sep), sep) == s
    decreases |s|
  {
    if |s| > 0 {
      var rest := Split(s[1..], sep);
      JoinSplit(s[1..], sep);
      if s[0] == sep {
        assert ([""] + rest)[1..] == rest;
      } else {
        var parts := [[s[0]] + rest[0]] + rest[1..];
        assert parts[1..] == rest[1..];
        if |rest| > 1 {
          assert Join(rest, sep) == rest[0] + [sep] + Join(rest[1..], sep);
        }
        assert s == [s[0]] + s[1..];
      }
    }
  }

  /** A string free of the separator splits into itself alone. */
  lemma {:induction false} SplitNoSeparator(s: string, sep: char)
    requires sep !in s
    ensures Split(s, sep) == [s]
    decreases |s|
  {
    if |s| > 0 {
      assert sep !in s[1..] by {
        forall i | 0 <= i < |s[1..]| ensures s[1..][i] != sep {
          assert s[1..][i] == s[i + 1];
        }
      }
      SplitNoSeparator(s[1..], sep);
      assert s == [s[0]] + s[1..];
    }
  }

  /** Splitting `head + sep + tail`, where `head` has no separator, yields
      `head` followed by the pieces of `tail`. */
  lemma {:induction false} SplitAfterHead(head: string, sep: char, tail: string)
    requires sep !in head
    ensures Split(head + [sep] + tail, sep) == [head] + Split(tail, sep)
    decreases |head|
  {
    var s := head + [sep] + tail;
    if |head| == 0 {
      assert s[1..] == tail;
    } else {
      assert s[1..] == head[1..] + [sep] + tail;
      assert sep !in head[1..] by {
        forall i | 0 <= i < |head[1..]| ensures head[1..][i] != sep {
          assert head[1..][i] == head[i + 1];
        }
      }
      SplitAfterHead(head[1..], sep, tail);
      assert [head[0]] + head[1..] == head;
    }
  }

  /** Splitting a join of separator-free pieces gives back the pieces. */
  lemma {:induction false} SplitJoin(parts: seq<string>, sep: char)
    requires |parts| >= 1
    requires forall k :: 0 <= k < |parts| ==> sep !in parts[k]
    ensures Split(Join(parts, sep), sep) == parts
    decreases |parts|
  {
    if |parts| == 1 {
      SplitNoSeparator(parts[0], sep);
    } else {
      SplitJoin(parts[1..], sep);
      SplitAfterHead(parts[0], sep, Join(parts[1..], sep));
      assert [parts[0]] + parts[1..] == parts;
    }
  }
}

=== FILE: wrappers.dfy ===
/** An optional value: a missing dictionary entry, a row that was not written. */
module Wrappers {

  datatype Option<+T> = None | Some(value: T)
}
